=== FILE: README.md ===
# flatline channel layer in Dafny

This project models the channel layer of `flatline`, an asynchronous SSH
client library. In that layer:

- A consumer holds a **Channel** handle. The handle owns the channel's
  inbound message stream (Stdout, Stderr, Exit, Eof and Close messages
  pushed by the Session task) and a clone of the Session's request sender.
- Receiving is local to the handle: `recv`, `try_recv`, `take_receiver`
  and `has_receiver` only touch the inbound stream. Every other operation
  (write, close and the request-building methods) is a request round trip.
  The handle sends a request that carries a one-shot completion, then
  awaits the answer.
- Dropping a handle sends a fire-and-forget `ChannelDrop`, but only while
  the handle still holds its Session link. A confirmed close clears the
  link, so the drop that follows it sends nothing.
- A **BufferChannel** turns the message stream into a byte stream. Stdout
  payloads are read by length. Stderr is collected on the side. Close and Eof
  become sticky failures. Outbound bytes wait in a pending buffer until the
  Session accepts them.
- Port forwarding has two parts. A **Stream** is a channel used as a byte
  pipe. A **Listener** yields incoming Streams and withdraws its forward
  when cancelled or dropped.

The model replaces the asynchronous plumbing with values:

- The inbound stream is the sequence of messages the consumer will still
  receive. Its end stands for the Session dropping the sending half, which
  the consumer sees as `Disconnected`.
- The Session's request side is a value `Session(open, replies, log)`:
  - `open`: whether sends succeed;
  - `replies`: the order in which completions are answered or dropped;
  - `log`: every request the Session received.
- `Close` and `Cancel` consume their handle in the source. The model
  therefore includes the drop at scope exit. `CloseRequest` and
  `CancelRequest` return the handle as it is when it goes out of scope.

Modules:

- `Base`: bytes, `u32`, `Option`, `Result` and the error kinds.
- `Vocabulary`: signals, exit statuses, messages, socket addresses.
- `SessionSide`: the Session's view of a channel.
- `Requests`: the Session's request queue.
- `Channels`: the handle.
- `Buffered`: the buffered view.
- `Forward`: streams and listeners.
- `Scenarios`: lemmas that connect the Session side to the consumer side.

The buffered reader is specified against reference definitions of a
message stream:

- `StdoutOf` and `StderrOf`: all payloads in order;
- `Readable`: the stdout bytes before the first Close or Eof;
- `StreamEnd`: the failure a reader meets after those bytes.

The central theorem is `FillReadsStream`. It says that, on a buffer with
neither flag set and its stream attached, `Fill(len)` succeeds
exactly when the buffered bytes plus the readable bytes reach `len`, and
that it then returns their first `len` bytes. Otherwise it fails with the
way the stream ends.

The outbound side is specified through `AcceptedSum`, the total of the byte
counts in a run of completions. The bytes the drain loop drops are exactly
the bytes the Session reported as accepted.

The success and failure of the outbound side are specified through two
more reference definitions:

- `CountsBeforeFailure`: the byte counts reported before the first
  completion that is not a count, added up;
- `FirstFailure`: the failure of the first completion that is not a count.

`split_to` and `advance` (src/channel.rs:256, 270 and 279) drop whatever
count the Session reports, including zero. A zero count leaves the pending
bytes unchanged, so that round of the drain loop makes no progress. No
contract here claims that a successful write shrinks the pending bytes.
`Buffered.Write` states exactly which prefix is dropped.

## Model

| member | source | states |
|---|---|---|
| Vocabulary.SignalIs | src/channel.rs:38-42 | a signal equals a plain string exactly when its name is that string |
| Vocabulary.Success | src/channel.rs:76-80 | a status is success exactly when it is a normal exit with code 0; a signal interrupt never is |
| SessionSide.NewEndpoint | src/channel.rs:600-611 | a fresh endpoint copies id, initial and maximum, starts with its window at the initial size, and has neither flag set |
| SessionSide.Push | src/channel.rs:626-634 | a best-effort push: appended when the consumer still holds the receiving half, lost otherwise; the consumer's presence does not change |
| SessionSide.ServerClose | src/channel.rs:626-629 | the server endpoint becomes closed and nothing else of it changes; a Close reaches the consumer exactly when it is still there |
| SessionSide.ServerEof | src/channel.rs:631-634 | the server endpoint becomes eof and nothing else of it changes; an Eof reaches the consumer exactly when it is still there |
| SessionSide.NotificationsAreMonotonic | src/channel.rs:625-635 | the two notifications commute on the endpoint, are idempotent, and leave window bookkeeping alone |
| Requests.Send | src/channel.rs:580-581 | a send succeeds exactly while the Session receives; only a successful send reaches the log; a failure is Disconnected |
| Requests.Await | src/channel.rs:463-465 | the oldest completion decides: its answer is returned, a dropped or missing one is an error; exactly one completion is used up |
| Channels.NewChannel | src/channel.rs:333-339 | a new handle has its inbound stream and its Session link |
| Channels.ReceiverRecv | src/channel.rs:308-310 | a receive yields the oldest message and loses nothing; an exhausted stream is Disconnected and unchanged |
| Channels.ReceiverTryRecv | src/channel.rs:312-318 | nothing yet gives None and leaves the stream alone; a ready message on a non-empty stream is always returned, taken off the front; a finished stream is Disconnected |
| Channels.TryRecvAgreesWhenReady | src/channel.rs:307-318 | once the next item has arrived, the non-suspending receive agrees with the suspending one |
| Channels.ReceiverPresence | src/channel.rs:427-429 | has_receiver holds exactly when take_receiver would yield the stream, and exactly when recv and try_recv reach a stream instead of failing with ChannelReceiverIsNone; without the stream nothing is pending |
| Channels.TakeReceiver | src/channel.rs:423-429 | yields a stream exactly when the handle had one, and the handle has none afterwards |
| Channels.Recv | src/channel.rs:431-439 | with the stream detached, fails with ChannelReceiverIsNone; otherwise succeeds exactly when a message is pending, and yields the oldest one |
| Channels.TryRecv | src/channel.rs:441-452 | with the stream detached, fails with ChannelReceiverIsNone; otherwise is the stream's non-suspending receive |
| Channels.TakeReceiverIsOneWay | src/channel.rs:423-452 | a second take yields nothing, later receives on the handle fail with ChannelReceiverIsNone, and the detached stream delivers what the handle would have |
| Channels.SendRequest | src/channel.rs:574-582 | succeeds exactly with a link and an open Session; no link is BadOperation("Channel has been closed"); a shut Session is Disconnected; failures log nothing |
| Channels.SessionLink | src/channel.rs:584-588 | yields the handle's own link exactly when it holds one, else BadOperation("Channel has been closed") |
| Channels.Call | src/channel.rs:402-413 | a failed send reports its error and uses no completion; otherwise the request is logged and the next completion decides |
| Channels.Write | src/channel.rs:454-466 | without a link BadOperation, with a shut Session Disconnected, neither logging anything; otherwise exactly one write request carrying the data is logged and the result is the next completion's answer as it is, or RequestAbandoned when it was dropped or missing; with the Session reachable it uses up exactly its own completion, whatever the outcome |
| Channels.Drop | src/channel.rs:321-330 | scope exit logs one fire-and-forget ChannelDrop exactly when the handle has its link and the Session receives |
| Channels.CloseRequest | src/channel.rs:357-371 | a confirmed close clears both the stream and the link; a failed one leaves the handle as it was |
| Channels.Close | src/channel.rs:357-371 | succeeds exactly when the completion confirms; an answered error is passed on and a dropped or missing completion is RequestAbandoned; a confirmed close logs one drop with completion; a failed one is followed by the fire-and-forget drop; no link or a shut Session logs nothing; with the Session reachable it uses up exactly its own completion, whatever the outcome |
| Channels.ClosedHandleDropsSilently | src/channel.rs:321-371 | after a confirmed close, scope exit sends nothing |
| Buffered.NewBuffer | src/channel.rs:219-229 | a new buffer has all three buffers empty and neither flag set |
| Buffered.Step | src/channel.rs:195-215 | one message is taken: Stdout is appended and settles Ok, Stderr goes to its own buffer and Exit is skipped (both continue), Close and Eof set their flag and settle with their failure |
| Buffered.Pump | src/channel.rs:194-216 | the receive loop keeps the link and pending writes, sets a flag exactly when it fails with the matching failure, and a success takes at least one message |
| Buffered.StepAccounts | src/channel.rs:195-215 | one pass loses and duplicates nothing: each buffer plus its payloads still in the stream is unchanged |
| Buffered.PumpStopsAtFirstStdout | src/channel.rs:194-216 | a successful receive loop took only Stderr and Exit messages and then one Stdout message, stops right after it, and grew the stdout buffer by exactly its payload |
| Buffered.PumpLeavesTail | src/channel.rs:194-216 | the receive loop only takes messages off the front of the stream |
| Buffered.PumpAccounts | src/channel.rs:194-216 | the stdout and stderr buffers grow by exactly the payloads taken, in order |
| Buffered.PumpReads | src/channel.rs:194-216 | a success moves readable bytes into the buffer and keeps how the stream ends; a failure means nothing readable was left and reports how the stream ends |
| Buffered.StepReads | src/channel.rs:195-215 | one pass of the receive loop: passing over Stderr or Exit keeps the buffer and the readable bytes, a Stdout message moves its bytes from the stream into the buffer, and a settling failure is how the stream ends |
| Buffered.Recv | src/channel.rs:185-217 | a set closed or eof flag fails at once without touching the stream; otherwise the receive loop runs |
| Buffered.Fill | src/channel.rs:235-241 | enough buffered bytes are returned without receiving; a success returns exactly the first len buffered bytes; each flag is set afterwards exactly when it was before or the fill failed with its failure |
| Buffered.FillLeavesTail | src/channel.rs:235-241 | a fill only takes messages off the front of the stream |
| Buffered.FillAccounts | src/channel.rs:235-241 | a fill loses and duplicates no payload |
| Buffered.FillReadsStream | src/channel.rs:235-241 | on a buffer with neither flag set and its stream attached, a fill succeeds exactly when buffered plus readable bytes reach len, returns their first len bytes, and otherwise fails with how the stream ends after buffering everything readable |
| Buffered.Consume | src/channel.rs:243-245 | the first len bytes are removed and the rest stay in order; nothing else changes |
| Buffered.ConsumeKeepsOrder | src/channel.rs:243-245 | after consuming n bytes, buffer plus stream read the rest of what they read before |
| Buffered.FillConsumeFill | src/channel.rs:235-245 | fill n, consume n, fill m returns the next m bytes: together the first n + m readable bytes, or how the stream ends |
| Buffered.Write | src/channel.rs:247-258 | closed fails with ChannelClosed and changes nothing; otherwise one write carries all pending bytes; it succeeds exactly when the next completion reports a count, and then drops exactly that prefix; otherwise it fails with the completion's error, RequestAbandoned, or the unreachable-Session error, and the data stays pending; with the Session reachable it uses up exactly its own completion, whatever the outcome |
| Buffered.Flush | src/channel.rs:275-282 | a success leaves nothing pending; with nothing pending nothing happens; with bytes pending and no reachable Session it fails with BadOperation or Disconnected and changes nothing; only the pending bytes change |
| Buffered.FlushLeavesTail | src/channel.rs:276-280 | the drain loop only drops bytes off the front |
| Buffered.FlushUsesFirstReplies | src/channel.rs:276-280 | the drain loop only uses completions off the front |
| Buffered.FlushAccounts | src/channel.rs:276-280 | the bytes dropped are exactly the counts the used completions reported |
| Buffered.FlushFails | src/channel.rs:276-280 | with bytes pending and the Session reachable, a failure of the drain loop is the first completion that is not a count: its answered error, or RequestAbandoned |
| Buffered.FlushSucceeds | src/channel.rs:276-280 | with the Session reachable, the drain loop succeeds exactly when the counts reported before the first completion that is not a count cover the pending bytes |
| Buffered.FlushOutcome | src/channel.rs:276-280 | both together: exactly when the drain loop succeeds, and what it fails with otherwise |
| Buffered.FlushLogs | src/channel.rs:276-280 | every request the drain loop sends is a write of this channel carrying a non-empty tail of the pending bytes |
| Buffered.WriteAll | src/channel.rs:260-273 | closed fails with ChannelClosed and changes nothing; otherwise the data joins the pending bytes and is drained; a success empties them and the completions accepted exactly the old pending bytes plus the data; with the Session reachable it succeeds exactly when the counts before the first non-count completion cover those bytes; a failure is the first non-count completion's failure, or the unreachable-Session error |
| Buffered.WriteAllIsWriteThenFlush | src/channel.rs:247-273 | with something pending, write-all is write followed by the drain loop: same first write, same failure, then a flush of what is left; with nothing pending, write still sends an empty write request and write-all sends nothing |
| Buffered.FlushIgnoresClosed | src/channel.rs:275-282 | the drain loop behaves the same whether or not the closed flag is set |
| Buffered.ClosedStaysClosed | src/channel.rs:185-264 | after a ChannelClosed read, later reads needing more data, writes and write-alls fail with ChannelClosed and change nothing |
| Buffered.EofStaysEof | src/channel.rs:185-241 | after a ChannelEof read, every later read needing more data fails with ChannelEof and changes nothing |
| Forward.StreamWrite | src/forward.rs:45-47 | passes the channel write's result through unchanged: no link is BadOperation, a shut Session Disconnected, otherwise the next completion's answer as it is, or RequestAbandoned |
| Forward.StreamRead | src/forward.rs:49-59 | the next message is used up; Stdout yields its bytes, Stderr is BadMessage("unexpected message"), Close, Eof and Exit are ChannelClosed; receive errors pass through |
| Forward.StreamMessage | src/forward.rs:61-63 | the oldest message is returned and nothing is lost |
| Forward.ReadFiltersMessage | src/forward.rs:49-63 | a read uses up the same message as a raw receive and succeeds exactly on a Stdout message, with its bytes |
| Forward.StreamClose | src/forward.rs:69-71 | no link is BadOperation and a shut Session Disconnected, logging nothing; otherwise succeeds exactly when the completion confirms, logging one drop; an answered error is passed on and a lost completion is RequestAbandoned, each followed by the fire-and-forget drop; with the Session reachable it uses up exactly its own completion, whatever the outcome |
| Forward.NewListener | src/forward.rs:98-110 | a new listener holds its Session link |
| Forward.Accept | src/forward.rs:112-114 | yields incoming connections in order; when they are exhausted, Disconnected |
| Forward.LinkedDrops | src/channel.rs:321-330 | reference definition: one fire-and-forget channel drop per stream that still holds its link, in order; so never more drops than streams, every one without a completion, and none when no stream holds its link |
| Forward.DropStreams | src/channel.rs:321-330 | dropping a run of streams one by one logs exactly their linked drops, in order, and changes nothing else of the Session |
| Forward.DropListener | src/forward.rs:78-95 | scope exit logs a fire-and-forget cancel of the address when the link is held, then the drops of the connections still queued, in arrival order; a shut Session receives nothing |
| Forward.CancelRequest | src/forward.rs:124-143 | a confirmed cancel clears the link; a failed one leaves the listener as it was |
| Forward.Cancel | src/forward.rs:124-143 | no link is BadOperation("Listener has been cancelled"); a shut Session or a dropped completion is Disconnected; an answered error is passed on; a failure after sending adds the fire-and-forget cancel; the drops of the connections still queued come last; with the Session reachable it uses up exactly its own completion, whatever the outcome |
| Forward.CancelledListenerDropsSilently | src/forward.rs:124-143 | after a confirmed cancel, scope exit sends no second cancel: only the queued connections are dropped |
| Forward.CancelMirrorsClose | src/forward.rs:124-143 | cancel and channel close succeed together and use the same completion; they differ only in that a lost completion is Disconnected for cancel, and cancel also drops the connections still queued |
| Scenarios.EndedBy | src/channel.rs:194-216 | a stream that ends at Close or Eof is readable exactly up to it, with that end's failure |
| Scenarios.FreshReads | src/channel.rs:219-241 | a fresh buffer reads exactly the stream's readable bytes |
| Scenarios.ServerEofEndsReads | src/channel.rs:631-634 | after the server's eof, a consumer reads every stdout byte sent before it, then fails with ChannelEof |
| Scenarios.ServerCloseEndsReads | src/channel.rs:626-629 | after the server's close, a consumer reads every stdout byte sent before it, then fails with ChannelClosed |
| Scenarios.TwoChunksThenEof | src/channel.rs:185-245 | two stdout chunks, an exit status, Eof and Close read as the joined chunks, then ChannelEof |

## Left out

- Concurrency and the asynchronous runtime are not modelled: tokio channels, one-shot completions and task scheduling. Each operation is one sequential step over explicit values, so races between drop, close and receive are outside the model.
- Channels.ReceiverRecv: a receive that suspends forever, with the sender alive and no message ever sent, is not represented. The stream is taken to be complete.
- Channels.Call: a dropped completion is converted through an error conversion in the error module, which is not part of this model. It appears here as its own kind, RequestAbandoned.
- Buffered.Write, Buffered.Flush, Buffered.WriteAll: each requires that the Session never reports more bytes accepted than were offered. The source aborts when that is violated, because the buffer advance panics. The model states this as a precondition instead of modelling the abort.
- Buffered.Consume: requires that no more bytes are consumed than are buffered. The source's advance at src/channel.rs:244 panics otherwise, and the model states this as a precondition instead of modelling the abort.
- Buffered.Flush: terminates because the completions are a finite sequence. A Session that keeps accepting zero bytes makes the source loop forever. In the model, running out of completions ends the loop with RequestAbandoned.
- The request-building methods exec, set_env, send_signal, eof, request_shell, request_pty, pty_change_size, request_x11_forward and xon_xoff are not modelled one by one. Each one only copies its fields into a request and runs the round trip that `Channels.Call` models.
- `BufferChannel::into_inner`, `Stream::address` and `Listener::listen_address` are plain accessors with nothing to state.
- The stderr buffer has no reader in this layer, so it is only accumulated.
- Byte counts and lengths are unbounded integers. The source's `usize` does not overflow at realistic sizes.
- The `TerminalMode` opcode table, the `Signal` and `SocketAddr` name constants, `ChannelOpenFailureReson` and its `SSH_OPEN_*` codes are data tables with no behaviour. The codes are defined in a module that is not part of this model.
- `Debug` and `Display` implementations are formatting only.
- Window-adjust and flow-control arithmetic on `Endpoint` is not in this layer beyond its constructor.
- `Request` is cut down to the three variants the modelled operations send. The other request kinds go out through the request-building methods listed above. The completion sender becomes a flag saying whether one is attached.

=== FILE: base.dfy ===
/**
  Shared vocabulary of the channel layer: fixed-width integers, bytes, the
  optional and fallible wrappers, and the error taxonomy every operation of
  the layer reports through.
 */
module Base {

  /** An octet of payload data. */
  newtype byte = x: int | 0 <= x < 0x100

  /** The 32-bit unsigned integers used for channel ids, window sizes and ports. */
  newtype u32 = x: int | 0 <= x < 0x1_0000_0000

  type Bytes = seq<byte>

  datatype Option<+T> = None | Some(value: T)

  /**
    The error kinds of the layer.
    - Disconnected: the Session or a channel's inbound stream is gone.
    - ChannelClosed / ChannelEof: terminal states of a buffered channel.
    - BadOperation: the handle has already given up its Session link.
    - BadMessage: a message variant that the caller cannot accept.
    - ChannelReceiverIsNone: the inbound stream has been detached.
    - RequestAbandoned: the Session dropped a request's completion without
      answering it. The source converts that case through a conversion
      defined in its error module, which is not part of this model; it is
      kept as a kind of its own here.
   */
  datatype Error =
    | Disconnected
    | ChannelClosed
    | ChannelEof
    | BadOperation(detail: string)
    | BadMessage(tip: string)
    | ChannelReceiverIsNone
    | RequestAbandoned

  datatype Result<+T> = Ok(value: T) | Err(error: Error)
}

=== FILE: buffer_channel.dfy ===
/**
  A buffering view over a channel: length-based reads out of a stdout buffer
  that is filled from the inbound stream, a stderr buffer that accumulates
  silently, and a pending-outbound buffer drained through the channel's
  write. Close and Eof are sticky: once seen, reads that need more data fail
  for good.
 */
module Buffered {
  import opened Base
  import opened Vocabulary
  import opened Requests
  import opened Channels

  datatype BufferChannel = BufferChannel(
    channel: Channel,
    stdout: Bytes,
    stderr: Bytes,
    stdin: Bytes,
    closed: bool,
    eof: bool)

  /** A new buffer over a channel: all buffers empty, neither terminal flag set. */
  function NewBuffer(ch: Channel): (b: BufferChannel)
    ensures b.channel == ch
    ensures |b.stdout| == 0 && |b.stderr| == 0 && |b.stdin| == 0
    ensures !b.closed && !b.eof
  {
    BufferChannel(ch, [], [], [], false, false)
  }

  // ---------------------------------------------------------------------
  // Reference definitions over a message stream

  /** The standard-output payload a message carries, if any. */
  function OutPart(m: Message): Bytes
  {
    if m.Stdout? then m.data else []
  }

  /** The standard-error payload a message carries, if any. */
  function ErrPart(m: Message): Bytes
  {
    if m.Stderr? then m.data else []
  }

  /** All standard-output payloads of a stretch of messages, in order. */
  function StdoutOf(q: seq<Message>): Bytes
  {
    if |q| == 0 then [] else OutPart(q[0]) + StdoutOf(q[1..])
  }

  /** All standard-error payloads of a stretch of messages, in order. */
  function StderrOf(q: seq<Message>): Bytes
  {
    if |q| == 0 then [] else ErrPart(q[0]) + StderrOf(q[1..])
  }

  /** The standard-output bytes a reader can obtain: everything before the first Close or Eof. */
  function Readable(q: seq<Message>): Bytes
  {
    if |q| == 0 then []
    else if q[0].Close? || q[0].Eof? then []
    else OutPart(q[0]) + Readable(q[1..])
  }

  /** The failure a reader meets once the readable bytes are exhausted. */
  function StreamEnd(q: seq<Message>): Error
  {
    if |q| == 0 then Disconnected
    else if q[0].Close? then ChannelClosed
    else if q[0].Eof? then ChannelEof
    else StreamEnd(q[1..])
  }

  /** `t` is what is left of `q` after some messages were taken off its front. */
  predicate IsTail<T(==)>(t: seq<T>, q: seq<T>)
  {
    |t| <= |q| && t == q[|q| - |t|..]
  }

  lemma TailOfTail<T>(t: seq<T>, u: seq<T>, q: seq<T>)
    requires IsTail(t, u) && IsTail(u, q)
    ensures IsTail(t, q)
  {
    assert q[|q| - |u|..][|u| - |t|..] == q[|q| - |t|..];
  }

  // ---------------------------------------------------------------------
  // Reading

  /** What one pass of the receive loop decided: go round again, or settle the call. */
  datatype Pull = Continue | Settled(result: Result<()>)

  /**
    One pass of the receive loop: pull one message and sort it. Stdout is
    appended and settles with success; Stderr is appended to its own buffer
    and Exit is skipped, and the loop goes on; Close and Eof set their sticky
    flag and settle with ChannelClosed and ChannelEof; a failed pull settles
    with its failure and takes nothing.
   */
  function Step(b: BufferChannel): (r: (Pull, BufferChannel))
    ensures r.1.channel.id == b.channel.id && r.1.channel.session == b.channel.session
    ensures HasReceiver(r.1.channel) == HasReceiver(b.channel)
    ensures r.1.stdin == b.stdin
    ensures !HasReceiver(b.channel) ==> r == (Settled(Err(ChannelReceiverIsNone)), b)
    ensures HasReceiver(b.channel) && |Pending(b.channel)| == 0 ==> r == (Settled(Err(Disconnected)), b)
    ensures var q := Pending(b.channel);
            |q| > 0 ==>
              && Pending(r.1.channel) == q[1..]
              && r.1.stdout == b.stdout + OutPart(q[0])
              && r.1.stderr == b.stderr + ErrPart(q[0])
              && (r.0.Continue? <==> q[0].Stderr? || q[0].Exit?)
              && (q[0].Stdout? ==> r.0 == Settled(Ok(())))
              && (q[0].Close? ==> r.0 == Settled(Err(ChannelClosed)))
              && (q[0].Eof? ==> r.0 == Settled(Err(ChannelEof)))
    ensures r.1.closed == (b.closed || r.0 == Settled(Err(ChannelClosed)))
    ensures r.1.eof == (b.eof || r.0 == Settled(Err(ChannelEof)))
  {
    var (m, ch) := Channels.Recv(b.channel);
    var b1 := b.(channel := ch);
    if m.Err? then (Settled(Err(m.error)), b1)
    else
      match m.value
      case Close => (Settled(Err(ChannelClosed)), b1.(closed := true))
      case Eof => (Settled(Err(ChannelEof)), b1.(eof := true))
      case Stdout(d) => (Settled(Ok(())), b1.(stdout := b.stdout + d))
      case Stderr(d) => (Continue, b1.(stderr := b.stderr + d))
      case Exit(_) => (Continue, b1)
  }

  /** The receive loop: take steps until one settles the call. */
  function Pump(b: BufferChannel): (r: (Result<()>, BufferChannel))
    ensures r.1.channel.id == b.channel.id && r.1.channel.session == b.channel.session
    ensures HasReceiver(r.1.channel) == HasReceiver(b.channel)
    ensures r.1.stdin == b.stdin
    ensures !HasReceiver(b.channel) ==> r == (Err(ChannelReceiverIsNone), b)
    ensures |Pending(r.1.channel)| <= |Pending(b.channel)|
    ensures r.0.Ok? ==> |Pending(r.1.channel)| < |Pending(b.channel)|
    ensures r.1.closed == (b.closed || r.0 == Err(ChannelClosed))
    ensures r.1.eof == (b.eof || r.0 == Err(ChannelEof))
    decreases |Pending(b.channel)|
  {
    var (p, b1) := Step(b);
    if p.Continue? then Pump(b1) else (p.result, b1)
  }

  /** The receive loop only ever takes messages off the front of the stream. */
  lemma {:induction false} PumpLeavesTail(b: BufferChannel)
    ensures IsTail(Pending(Pump(b).1.channel), Pending(b.channel))
    decreases |Pending(b.channel)|
  {
    var q := Pending(b.channel);
    var (p, b1) := Step(b);
    if |q| > 0 && p.Continue? {
      PumpLeavesTail(b1);
      assert IsTail(Pending(b1.channel), q);
      TailOfTail(Pending(Pump(b1).1.channel), Pending(b1.channel), q);
    }
  }

  /**
    Nothing the receive loop pulls is lost or duplicated: the stdout buffer
    plus all stdout payloads still in the stream is the same before and
    after, and likewise for stderr. With the stream only losing messages off
    its front, the buffers grow by exactly the payloads taken, in order.
   */
  lemma {:induction false} PumpAccounts(b: BufferChannel)
    ensures var r, q := Pump(b).1, Pending(b.channel);
            && r.stdout + StdoutOf(Pending(r.channel)) == b.stdout + StdoutOf(q)
            && r.stderr + StderrOf(Pending(r.channel)) == b.stderr + StderrOf(q)
    decreases |Pending(b.channel)|
  {
    StepAccounts(b);
    var (p, b1) := Step(b);
    if |Pending(b.channel)| > 0 && p.Continue? {
      PumpAccounts(b1);
    }
  }

  /** `PumpAccounts` for a single pass of the loop. */
  lemma StepAccounts(b: BufferChannel)
    ensures var r, q := Step(b).1, Pending(b.channel);
            && r.stdout + StdoutOf(Pending(r.channel)) == b.stdout + StdoutOf(q)
            && r.stderr + StderrOf(Pending(r.channel)) == b.stderr + StderrOf(q)
  {
    var q := Pending(b.channel);
    if |q| > 0 {
      var r := Step(b).1;
      assert r.stdout + StdoutOf(q[1..]) == b.stdout + (OutPart(q[0]) + StdoutOf(q[1..]));
      assert r.stderr + StderrOf(q[1..]) == b.stderr + (ErrPart(q[0]) + StderrOf(q[1..]));
    }
  }

  /**
    What the receive loop means for a reader: a success moves readable bytes
    from the stream into the buffer without changing their sum or how the
    stream ends; a failure means the stream had no readable bytes left, and
    with the stream attached the failure is how the stream ends.
   */
  lemma {:induction false} PumpReads(b: BufferChannel)
    ensures var r, q := Pump(b), Pending(b.channel);
            var q' := Pending(r.1.channel);
            && (r.0.Ok? ==> r.1.stdout + Readable(q') == b.stdout + Readable(q))
            && (r.0.Ok? ==> StreamEnd(q') == StreamEnd(q))
            && (r.0.Err? ==> Readable(q) == [] && r.1.stdout == b.stdout)
            && (r.0.Err? && HasReceiver(b.channel) ==> r.0.error == StreamEnd(q))
    decreases |Pending(b.channel)|
  {
    StepReads(b);
    var st := Step(b);
    if st.0.Continue? {
      assert Pump(b) == Pump(st.1);
      PumpReads(st.1);
    } else {
      assert Pump(b) == (st.0.result, st.1);
    }
  }

  /** `PumpReads` for a single pass of the loop. */
  lemma StepReads(b: BufferChannel)
    ensures var st, q := Step(b), Pending(b.channel);
            var q' := Pending(st.1.channel);
            && (st.0.Continue? ==>
                  st.1.stdout == b.stdout && Readable(q') == Readable(q) && StreamEnd(q') == StreamEnd(q))
            && (st.0 == Settled(Ok(())) ==>
                  st.1.stdout + Readable(q') == b.stdout + Readable(q) && StreamEnd(q') == StreamEnd(q))
            && (st.0.Settled? && st.0.result.Err? ==> Readable(q) == [] && st.1.stdout == b.stdout)
            && (st.0.Settled? && st.0.result.Err? && HasReceiver(b.channel) ==> st.0.result.error == StreamEnd(q))
  {
    var q := Pending(b.channel);
    if |q| > 0 && q[0].Stdout? {
      assert Step(b).1.stdout + Readable(q[1..]) == b.stdout + (q[0].data + Readable(q[1..]));
    }
  }


  /** Every message of the run is one the receive loop passes over without settling. */
  predicate Skippable(d: seq<Message>)
  {
    forall i :: 0 <= i < |d| ==> d[i].Stderr? || d[i].Exit?
  }

  lemma SkippableCons(m: Message, d: seq<Message>)
    requires (m.Stderr? || m.Exit?) && Skippable(d)
    ensures Skippable([m] + d)
  {
    forall i | 1 <= i < |[m] + d| ensures ([m] + d)[i].Stderr? || ([m] + d)[i].Exit? {
      assert ([m] + d)[i] == d[i - 1];
    }
  }

  /**
    The receive loop took `q` down to `rest` by passing over Stderr and Exit
    messages and settling on the first Stdout message, whose payload took
    the stdout buffer from `before` to `after`.
   */
  predicate StopsAt(q: seq<Message>, rest: seq<Message>, before: Bytes, after: Bytes)
  {
    var k := |q| - |rest| - 1;
    && 0 <= k < |q|
    && q[k].Stdout?
    && Skippable(q[..k])
    && rest == q[k + 1..]
    && after == before + q[k].data
  }

  /** `StopsAt` moved one skipped message back. */
  lemma SkipOneMore(q: seq<Message>, rest: seq<Message>, before: Bytes, after: Bytes)
    requires |q| > 0 && (q[0].Stderr? || q[0].Exit?)
    requires StopsAt(q[1..], rest, before, after)
    ensures StopsAt(q, rest, before, after)
  {
    var q1 := q[1..];
    var k := |q1| - |rest| - 1;
    assert q[..k + 1] == [q[0]] + q1[..k];
    SkippableCons(q[0], q1[..k]);
    assert q1[k + 1..] == q[k + 2..];
  }

  /**
    A successful receive loop stops at the first Stdout message: every
    message it took before that was Stderr or Exit, the stream resumes right
    after it, and the stdout buffer grew by exactly its payload.
   */
  lemma {:induction false} PumpStopsAtFirstStdout(b: BufferChannel)
    requires HasReceiver(b.channel) && Pump(b).0.Ok?
    ensures StopsAt(Pending(b.channel), Pending(Pump(b).1.channel), b.stdout, Pump(b).1.stdout)
    decreases |Pending(b.channel)|
  {
    var q := Pending(b.channel);
    var st := Step(b);
    assert |q| > 0;
    if st.0.Continue? {
      assert Pump(b) == Pump(st.1);
      PumpStopsAtFirstStdout(st.1);
      assert Pending(st.1.channel) == q[1..] && st.1.stdout == b.stdout;
      SkipOneMore(q, Pending(Pump(st.1).1.channel), b.stdout, Pump(st.1).1.stdout);
    } else {
      assert Pump(b) == (st.0.result, st.1);
      assert q[..0] == [];
    }
  }


  /**
    One receive: a set closed flag fails with ChannelClosed and a set eof flag
    with ChannelEof, both without pulling from the stream; otherwise the
    receive loop runs.
   */
  function Recv(b: BufferChannel): (r: (Result<()>, BufferChannel))
    ensures b.closed ==> r == (Err(ChannelClosed), b)
    ensures !b.closed && b.eof ==> r == (Err(ChannelEof), b)
    ensures !b.closed && !b.eof ==> r == Pump(b)
    ensures b.closed ==> r.1.closed
    ensures b.eof ==> r.1.eof
    ensures r.0.Ok? ==> r.1.closed == b.closed && r.1.eof == b.eof
    ensures r.0.Ok? ==> |Pending(r.1.channel)| < |Pending(b.channel)|
  {
    if b.closed then (Err(ChannelClosed), b)
    else if b.eof then (Err(ChannelEof), b)
    else Pump(b)
  }

  /**
    Blocks until at least `len` stdout bytes are buffered and returns the
    first `len` of them, leaving them buffered. It never returns fewer: a
    receive failure on the way is returned instead. Whatever happens, the
    buffers grew by exactly the payloads of the messages taken, and each
    terminal flag is set afterwards exactly when it was set before or the
    fill failed with its failure.
   */
  function Fill(b: BufferChannel, len: nat): (r: (Result<Bytes>, BufferChannel))
    ensures r.1.channel.id == b.channel.id && r.1.channel.session == b.channel.session
    ensures HasReceiver(r.1.channel) == HasReceiver(b.channel)
    ensures r.1.stdin == b.stdin
    ensures |b.stdout| >= len ==> r == (Ok(b.stdout[..len]), b)
    ensures |b.stdout| < len && b.closed ==> r == (Err(ChannelClosed), b)
    ensures |b.stdout| < len && !b.closed && b.eof ==> r == (Err(ChannelEof), b)
    ensures r.0.Ok? ==> |r.1.stdout| >= len && r.0.value == r.1.stdout[..len]
    ensures r.1.closed == (b.closed || r.0 == Err(ChannelClosed))
    ensures r.1.eof == (b.eof || r.0 == Err(ChannelEof))
    ensures |Pending(r.1.channel)| <= |Pending(b.channel)|
    decreases |Pending(b.channel)|
  {
    if |b.stdout| >= len then (Ok(b.stdout[..len]), b)
    else
      var (res, b1) := Recv(b);
      if res.Err? then (Err(res.error), b1)
      else Fill(b1, len)
  }

  /** A fill only ever takes messages off the front of the stream. */
  lemma {:induction false} FillLeavesTail(b: BufferChannel, len: nat)
    ensures IsTail(Pending(Fill(b, len).1.channel), Pending(b.channel))
    decreases |Pending(b.channel)|
  {
    if |b.stdout| < len && !b.closed && !b.eof {
      PumpLeavesTail(b);
      var b1 := Pump(b).1;
      if Pump(b).0.Ok? {
        FillLeavesTail(b1, len);
        TailOfTail(Pending(Fill(b1, len).1.channel), Pending(b1.channel), Pending(b.channel));
      }
    }
  }

  /**
    Nothing a fill pulls is lost or duplicated: each buffer plus the matching
    payloads still in the stream is the same before and after.
   */
  lemma {:induction false} FillAccounts(b: BufferChannel, len: nat)
    ensures var r, q := Fill(b, len).1, Pending(b.channel);
            && r.stdout + StdoutOf(Pending(r.channel)) == b.stdout + StdoutOf(q)
            && r.stderr + StderrOf(Pending(r.channel)) == b.stderr + StderrOf(q)
    decreases |Pending(b.channel)|
  {
    if |b.stdout| < len && !b.closed && !b.eof {
      PumpAccounts(b);
      if Pump(b).0.Ok? {
        FillAccounts(Pump(b).1, len);
      }
    }
  }

  /**
    The fundamental reading theorem: with neither flag set and the stream
    attached, `Fill(len)` succeeds exactly when the buffered bytes plus the
    stream's readable bytes reach `len`, and then returns the first `len` of
    them. Otherwise it fails with the way the stream ends, after buffering
    all of its readable bytes.
   */
  lemma {:induction false} FillReadsStream(b: BufferChannel, len: nat)
    requires !b.closed && !b.eof && HasReceiver(b.channel)
    ensures var r := Fill(b, len);
            var whole := b.stdout + Readable(Pending(b.channel));
            && (r.0.Ok? <==> |whole| >= len)
            && (r.0.Ok? ==> r.0.value == whole[..len])
            && (r.0.Ok? ==> r.1.stdout + Readable(Pending(r.1.channel)) == whole)
            && (r.0.Ok? ==> StreamEnd(Pending(r.1.channel)) == StreamEnd(Pending(b.channel)))
            && (r.0.Ok? ==> HasReceiver(r.1.channel) && !r.1.closed && !r.1.eof)
            && (r.0.Err? ==> r.0.error == StreamEnd(Pending(b.channel)) && r.1.stdout == whole)
    decreases |Pending(b.channel)|
  {
    var whole := b.stdout + Readable(Pending(b.channel));
    if |b.stdout| >= len {
      assert whole[..len] == b.stdout[..len];
    } else {
      PumpReads(b);
      var p := Pump(b);
      if p.0.Ok? {
        assert Fill(b, len) == Fill(p.1, len);
        FillReadsStream(p.1, len);
      }
    }
  }

  /**
    Advances past `len` bytes that an earlier fill made available; asking
    for more than is buffered is a caller error.
   */
  function Consume(b: BufferChannel, len: nat): (b': BufferChannel)
    requires len <= |b.stdout|
    ensures b.stdout == b.stdout[..len] + b'.stdout
    ensures |b'.stdout| == |b.stdout| - len
    ensures b'.channel == b.channel && b'.stderr == b.stderr && b'.stdin == b.stdin
    ensures b'.closed == b.closed && b'.eof == b.eof
  {
    b.(stdout := b.stdout[len..])
  }

  /**
    Consumed bytes are never returned again: after `Fill(n)` and
    `Consume(n)`, a `Fill(m)` yields the next `m` readable bytes of the
    stream, so the two reads together are its first `n + m` bytes.
   */
  lemma FillConsumeFill(b: BufferChannel, n: nat, m: nat)
    requires !b.closed && !b.eof && HasReceiver(b.channel)
    requires Fill(b, n).0.Ok?
    ensures var whole := b.stdout + Readable(Pending(b.channel));
            var second := Fill(Consume(Fill(b, n).1, n), m).0;
            && (second.Ok? <==> |whole| >= n + m)
            && (second.Ok? ==> Fill(b, n).0.value + second.value == whole[..n + m])
            && (second.Err? ==> second.error == StreamEnd(Pending(b.channel)))
  {
    var whole := b.stdout + Readable(Pending(b.channel));
    FillReadsStream(b, n);
    var b1 := Fill(b, n).1;
    ConsumeKeepsOrder(b1, n, whole);
    var b2 := Consume(b1, n);
    FillReadsStream(b2, m);
    if Fill(b2, m).0.Ok? {
      SplitPrefix(whole, n, m);
    }
  }

  /** Consuming from a buffer whose bytes and stream together read `whole` leaves the rest of `whole`. */
  lemma ConsumeKeepsOrder(b: BufferChannel, n: nat, whole: Bytes)
    requires n <= |b.stdout|
    requires b.stdout + Readable(Pending(b.channel)) == whole
    ensures Consume(b, n).stdout + Readable(Pending(Consume(b, n).channel)) == whole[n..]
  {
    assert (b.stdout + Readable(Pending(b.channel)))[n..] == b.stdout[n..] + Readable(Pending(b.channel));
  }

  lemma SplitPrefix(w: Bytes, n: nat, m: nat)
    requires n + m <= |w|
    ensures w[..n] + w[n..][..m] == w[..n + m]
  {
  }

  // ---------------------------------------------------------------------
  // Writing

  /** The handle's request will reach the Session. */
  predicate Live(ch: Channel, s: Session)
  {
    ch.session.Some? && s.open
  }

  /**
    The Session's next completion, if it reports a write of some count,
    reports at most `pending` bytes. The source trusts this: removing more
    bytes than are pending aborts the program.
   */
  predicate FitsNext(pending: nat, replies: seq<Reply>)
  {
    |replies| == 0 || !(replies[0].Answered? && replies[0].result.Ok?) || replies[0].result.value <= pending
  }

  /** `FitsNext` for every completion a flush loop starting at `pending` bytes would use up. */
  predicate Fits(pending: nat, replies: seq<Reply>)
    decreases |replies|
  {
    if |replies| == 0 || pending == 0 then true
    else
      match replies[0]
      case Answered(Ok(n)) => n <= pending && Fits(pending - n, replies[1..])
      case _ => true
  }

  /** The byte counts reported by a run of write completions, added up. */
  function AcceptedSum(replies: seq<Reply>): nat
  {
    if |replies| == 0 then 0
    else
      (match replies[0] case Answered(Ok(n)) => n case _ => 0) + AcceptedSum(replies[1..])
  }

  /**
    The bytes the completions of the run report accepted before the first
    completion that is not a byte count: the most a drain loop over the run
    can hand to the Session.
   */
  function CountsBeforeFailure(replies: seq<Reply>): nat
  {
    if |replies| == 0 then 0
    else
      match replies[0]
      case Answered(Ok(n)) => n + CountsBeforeFailure(replies[1..])
      case _ => 0
  }

  /**
    The failure the first completion of the run that is not a byte count
    stands for: its answered error, or RequestAbandoned when it was dropped
    or the run ends first.
   */
  function FirstFailure(replies: seq<Reply>): Error
  {
    if |replies| == 0 then RequestAbandoned
    else
      match replies[0]
      case Answered(Ok(_)) => FirstFailure(replies[1..])
      case Answered(Err(e)) => e
      case Dropped => RequestAbandoned
  }

  /** The error a request of a handle that cannot reach the Session fails with. */
  function Unreachable(ch: Channel, s: Session): Error
  {
    if ch.session.None? then BadOperation(closedDetail) else Disconnected
  }

  /** A write request of channel `id` carrying a non-empty tail of `pending`. */
  predicate WritesTail(req: Request, id: u32, pending: Bytes)
  {
    req.ChannelWriteStdout? && req.id == id && 0 < |req.data| && IsTail(req.data, pending)
  }

  /**
    One write attempt: fails with ChannelClosed once closed, leaving
    everything as it was. Otherwise the data joins the pending bytes, all
    pending bytes are offered in exactly one underlying write, and exactly
    the prefix the Session accepted is dropped; on a failure the data stays
    pending.
   */
  function Write(b: BufferChannel, s: Session, data: Bytes): (r: (Result<()>, BufferChannel, Session))
    requires !b.closed && Live(b.channel, s) ==> FitsNext(|b.stdin| + |data|, s.replies)
    ensures b.closed ==> r == (Err(ChannelClosed), b, s)
    ensures r.1 == b.(stdin := r.1.stdin)
    ensures r.2.open == s.open
    ensures !b.closed && Live(b.channel, s) ==>
              r.2.log == s.log + [ChannelWriteStdout(b.channel.id, b.stdin + data)]
    ensures !b.closed && !Live(b.channel, s) ==> r.2 == s
    ensures !b.closed && r.0.Err? ==> r.1.stdin == b.stdin + data
    ensures r.0.Ok? ==> && |s.replies| > 0 && s.replies[0].Answered? && s.replies[0].result.Ok?
                        && s.replies[0].result.value <= |b.stdin| + |data|
                        && r.1.stdin == (b.stdin + data)[s.replies[0].result.value..]
                        && r.2.replies == s.replies[1..]
    ensures !b.closed && !Live(b.channel, s) ==> r.0 == Err(Unreachable(b.channel, s))
    ensures !b.closed && Live(b.channel, s) && |s.replies| > 0 ==> r.2.replies == s.replies[1..]
    ensures |s.replies| == 0 ==> r.2.replies == []
    ensures !b.closed && Live(b.channel, s) ==>
              && (r.0.Ok? <==> |s.replies| > 0 && s.replies[0].Answered? && s.replies[0].result.Ok?)
              && (|s.replies| > 0 && s.replies[0].Answered? && s.replies[0].result.Err? ==>
                    r.0 == Err(s.replies[0].result.error))
              && (|s.replies| == 0 || s.replies[0].Dropped? ==> r.0 == Err(RequestAbandoned))
  {
    if b.closed then (Err(ChannelClosed), b, s)
    else
      var pending := b.stdin + data;
      var (res, s') := Channels.Write(b.channel, s, pending);
      if res.Err? then (Err(res.error), b.(stdin := pending), s')
      else (Ok(()), b.(stdin := pending[res.value..]), s')
  }

  /**
    The drain loop of flush: while bytes are pending, offer them all in one
    write and drop the prefix the Session accepted. On success nothing is
    pending. The closed flag is not consulted.
   */
  function Flush(b: BufferChannel, s: Session): (r: (Result<()>, BufferChannel, Session))
    requires Live(b.channel, s) ==> Fits(|b.stdin|, s.replies)
    ensures r.1 == b.(stdin := r.1.stdin)
    ensures r.0.Ok? ==> |r.1.stdin| == 0
    ensures |b.stdin| == 0 ==> r == (Ok(()), b, s)
    ensures |b.stdin| > 0 && !Live(b.channel, s) ==> r == (Err(Unreachable(b.channel, s)), b, s)
    ensures |r.1.stdin| <= |b.stdin|
    ensures r.2.open == s.open
    ensures |r.2.replies| <= |s.replies|
    decreases |s.replies|
  {
    if |b.stdin| == 0 then (Ok(()), b, s)
    else
      var (res, s1) := Channels.Write(b.channel, s, b.stdin);
      if res.Err? then (Err(res.error), b, s1)
      else Flush(b.(stdin := b.stdin[res.value..]), s1)
  }

  /** The drain loop only drops bytes off the front of the pending bytes. */
  lemma {:induction false} FlushLeavesTail(b: BufferChannel, s: Session)
    requires Live(b.channel, s) ==> Fits(|b.stdin|, s.replies)
    ensures IsTail(Flush(b, s).1.stdin, b.stdin)
    decreases |s.replies|
  {
    if |b.stdin| > 0 && Live(b.channel, s) {
      var w := Channels.Write(b.channel, s, b.stdin);
      if w.0.Ok? {
        var b1 := b.(stdin := b.stdin[w.0.value..]);
        assert Flush(b, s) == Flush(b1, w.1);
        FlushLeavesTail(b1, w.1);
        assert IsTail(b1.stdin, b.stdin);
        TailOfTail(Flush(b1, w.1).1.stdin, b1.stdin, b.stdin);
      }
    }
  }

  /** The drain loop only uses up completions off the front of the Session's completions. */
  lemma {:induction false} FlushUsesFirstReplies(b: BufferChannel, s: Session)
    requires Live(b.channel, s) ==> Fits(|b.stdin|, s.replies)
    ensures IsTail(Flush(b, s).2.replies, s.replies)
    decreases |s.replies|
  {
    if |b.stdin| > 0 && Live(b.channel, s) {
      var w := Channels.Write(b.channel, s, b.stdin);
      assert IsTail(w.1.replies, s.replies);
      if w.0.Ok? {
        var b1 := b.(stdin := b.stdin[w.0.value..]);
        assert Flush(b, s) == Flush(b1, w.1);
        FlushUsesFirstReplies(b1, w.1);
        TailOfTail(Flush(b1, w.1).2.replies, w.1.replies, s.replies);
      }
    }
  }

  /**
    Nothing the drain loop sends is lost or duplicated: the bytes it drops
    are exactly the counts reported by the completions it used up.
   */
  lemma {:induction false} FlushAccounts(b: BufferChannel, s: Session)
    requires Live(b.channel, s) ==> Fits(|b.stdin|, s.replies)
    ensures |b.stdin| - |Flush(b, s).1.stdin| == AcceptedSum(s.replies) - AcceptedSum(Flush(b, s).2.replies)
    decreases |s.replies|
  {
    if |b.stdin| > 0 && Live(b.channel, s) {
      var w := Channels.Write(b.channel, s, b.stdin);
      if w.0.Ok? {
        var b1 := b.(stdin := b.stdin[w.0.value..]);
        assert Flush(b, s) == Flush(b1, w.1);
        FlushAccounts(b1, w.1);
      }
    }
  }

  /**
    Every request the drain loop sends is a write of this channel carrying a
    non-empty tail of the bytes pending at the start; nothing else reaches
    the Session's log.
   */
  lemma {:induction false} FlushLogs(b: BufferChannel, s: Session)
    requires Live(b.channel, s) ==> Fits(|b.stdin|, s.replies)
    ensures var s' := Flush(b, s).2;
            && |s.log| <= |s'.log| && s'.log[..|s.log|] == s.log
            && forall i :: |s.log| <= i < |s'.log| ==> WritesTail(s'.log[i], b.channel.id, b.stdin)
    decreases |s.replies|
  {
    if |b.stdin| > 0 && Live(b.channel, s) {
      var w := Channels.Write(b.channel, s, b.stdin);
      assert WritesTail(w.1.log[|s.log|], b.channel.id, b.stdin);
      if w.0.Ok? {
        var b1 := b.(stdin := b.stdin[w.0.value..]);
        assert Flush(b, s) == Flush(b1, w.1);
        FlushLogs(b1, w.1);
        TailsOfTail(b1.stdin, b.stdin);
      }
    }
  }

  /**
    How the drain loop fails: with bytes pending and the Session reachable,
    a failure is the failure of the first completion that is not a byte
    count, or RequestAbandoned when every completion was a count and they
    ran out.
   */
  lemma {:induction false} FlushFails(b: BufferChannel, s: Session)
    requires Live(b.channel, s) ==> Fits(|b.stdin|, s.replies)
    requires Live(b.channel, s) && |b.stdin| > 0
    ensures Flush(b, s).0.Err? ==> Flush(b, s).0.error == FirstFailure(s.replies)
    decreases |s.replies|
  {
    var w := Channels.Write(b.channel, s, b.stdin);
    if w.0.Ok? {
      var b1 := b.(stdin := b.stdin[w.0.value..]);
      assert Flush(b, s) == Flush(b1, w.1);
      assert FirstFailure(s.replies) == FirstFailure(w.1.replies);
      if |b1.stdin| > 0 {
        FlushFails(b1, w.1);
      }
    }
  }

  /**
    When the drain loop succeeds: with the Session reachable, exactly when
    the byte counts reported before the first completion that is not a count
    cover the pending bytes.
   */
  lemma {:induction false} FlushSucceeds(b: BufferChannel, s: Session)
    requires Live(b.channel, s) && Fits(|b.stdin|, s.replies)
    ensures Flush(b, s).0.Ok? <==> CountsBeforeFailure(s.replies) >= |b.stdin|
    decreases |s.replies|
  {
    if |b.stdin| > 0 {
      var w := Channels.Write(b.channel, s, b.stdin);
      if w.0.Ok? {
        var b1 := b.(stdin := b.stdin[w.0.value..]);
        assert Flush(b, s) == Flush(b1, w.1);
        assert CountsBeforeFailure(s.replies) == w.0.value + CountsBeforeFailure(w.1.replies);
        FlushSucceeds(b1, w.1);
      }
    }
  }

  /** `FlushSucceeds` and `FlushFails` together: when the drain loop succeeds, and what it fails with otherwise. */
  lemma FlushOutcome(b: BufferChannel, s: Session)
    requires Live(b.channel, s) ==> Fits(|b.stdin|, s.replies)
    ensures Live(b.channel, s) ==> (Flush(b, s).0.Ok? <==> CountsBeforeFailure(s.replies) >= |b.stdin|)
    ensures Live(b.channel, s) && |b.stdin| > 0 && Flush(b, s).0.Err? ==> Flush(b, s).0.error == FirstFailure(s.replies)
  {
    if Live(b.channel, s) {
      FlushSucceeds(b, s);
      if |b.stdin| > 0 {
        FlushFails(b, s);
      }
    }
  }

  /** A tail of a tail of the pending bytes is a tail of them. */
  lemma TailsOfTail(t: Bytes, q: Bytes)
    requires IsTail(t, q)
    ensures forall req: Request, id: u32 :: WritesTail(req, id, t) ==> WritesTail(req, id, q)
  {
    forall req: Request, id: u32 | WritesTail(req, id, t)
      ensures WritesTail(req, id, q)
    {
      TailOfTail(req.data, t, q);
    }
  }

  /**
    Writes everything: fails with ChannelClosed once closed, leaving
    everything as it was; otherwise the data joins the pending bytes and the
    drain loop runs. With the Session reachable it succeeds exactly when the
    counts reported before the first completion that is not a count cover
    the earlier pending bytes and the new data; on success nothing is left
    pending and the completions used up reported exactly those bytes as
    accepted.
   */
  function WriteAll(b: BufferChannel, s: Session, data: Bytes): (r: (Result<()>, BufferChannel, Session))
    requires !b.closed && Live(b.channel, s) ==> Fits(|b.stdin| + |data|, s.replies)
    ensures b.closed ==> r == (Err(ChannelClosed), b, s)
    ensures !b.closed ==> r == Flush(b.(stdin := b.stdin + data), s)
    ensures r.0.Ok? ==> |r.1.stdin| == 0
    ensures r.0.Ok? ==> AcceptedSum(s.replies) - AcceptedSum(r.2.replies) == |b.stdin| + |data|
    ensures !b.closed && Live(b.channel, s) ==>
              (r.0.Ok? <==> CountsBeforeFailure(s.replies) >= |b.stdin| + |data|)
    ensures !b.closed && Live(b.channel, s) && |b.stdin| + |data| > 0 && r.0.Err? ==>
              r.0.error == FirstFailure(s.replies)
    ensures !b.closed && !Live(b.channel, s) && |b.stdin| + |data| > 0 ==>
              r.0 == Err(Unreachable(b.channel, s))
  {
    if b.closed then (Err(ChannelClosed), b, s)
    else
      var b1 := b.(stdin := b.stdin + data);
      FlushAccounts(b1, s);
      FlushOutcome(b1, s);
      Flush(b1, s)
  }

  /**
    Writing everything is one write followed by the drain loop, whenever
    something is pending: both make the same first underlying write, a
    failure of it ends both the same way, and after a success write-all
    just flushes what the write left. With nothing pending the two part
    ways: the write still sends an empty write request, write-all sends
    nothing.
   */
  lemma WriteAllIsWriteThenFlush(b: BufferChannel, s: Session, data: Bytes)
    requires !b.closed && Live(b.channel, s) ==> Fits(|b.stdin| + |data|, s.replies)
    ensures |b.stdin| + |data| > 0 ==>
              var w := Write(b, s, data);
              && (w.0.Err? ==> WriteAll(b, s, data) == w)
              && (w.0.Ok? ==> Live(b.channel, w.2) ==> Fits(|w.1.stdin|, w.2.replies))
              && (w.0.Ok? ==> WriteAll(b, s, data) == Flush(w.1, w.2))
    ensures |b.stdin| + |data| == 0 && !b.closed && Live(b.channel, s) && FitsNext(0, s.replies) ==>
              && Write(b, s, data).2.log == s.log + [ChannelWriteStdout(b.channel.id, [])]
              && WriteAll(b, s, data) == (Ok(()), b, s)
  {
    if !b.closed && |b.stdin| + |data| > 0 {
      var b1 := b.(stdin := b.stdin + data);
      var c := Channels.Write(b.channel, s, b1.stdin);
      assert WriteAll(b, s, data) == Flush(b1, s);
      if c.0.Ok? {
        assert Flush(b1, s) == Flush(b1.(stdin := b1.stdin[c.0.value..]), c.1);
      }
    }
    if |b.stdin| + |data| == 0 {
      assert b.stdin + data == [];
    }
  }

  /**
    Flush, unlike the two writes, ignores the closed flag: it behaves the same
    whether or not a Close has been seen.
   */
  lemma {:induction false} FlushIgnoresClosed(b: BufferChannel, s: Session)
    requires Live(b.channel, s) ==> Fits(|b.stdin|, s.replies)
    ensures var r0, r1 := Flush(b.(closed := false), s), Flush(b.(closed := true), s);
            r0.0 == r1.0 && r0.2 == r1.2 && r0.1.stdin == r1.1.stdin
    decreases |s.replies|
  {
    if |b.stdin| > 0 && Live(b.channel, s) {
      var (res, s1) := Channels.Write(b.channel, s, b.stdin);
      if res.Ok? {
        FlushIgnoresClosed(b.(stdin := b.stdin[res.value..]), s1);
      }
    }
  }

  /**
    Terminal states are sticky: after a read fails with ChannelClosed, every
    later read that needs more data, and every later write or write-all,
    fails with ChannelClosed without touching anything.
   */
  lemma ClosedStaysClosed(b: BufferChannel, len: nat, m: nat, s: Session, data: Bytes)
    requires Fill(b, len).0 == Err(ChannelClosed)
    ensures var b' := Fill(b, len).1;
            && (m > |b'.stdout| ==> Fill(b', m) == (Err(ChannelClosed), b'))
            && Write(b', s, data) == (Err(ChannelClosed), b', s)
            && WriteAll(b', s, data) == (Err(ChannelClosed), b', s)
  {
  }

  /** After a read fails with ChannelEof, every later read that needs more data fails the same way. */
  lemma EofStaysEof(b: BufferChannel, len: nat, m: nat)
    requires Fill(b, len).0 == Err(ChannelEof)
    ensures var b' := Fill(b, len).1;
            m > |b'.stdout| ==> Fill(b', m) == (Err(ChannelEof), b')
  {
  }
}

=== FILE: channel.dfy ===
/**
  The consumer's handle on one channel. It owns the channel's inbound
  message stream (until that is detached) and a link to the Session's shared
  request queue (until the handle is closed). Each request is a round trip:
  the request goes out carrying a one-shot completion and the handle awaits
  the answer.
 */
module Channels {
  import opened Base
  import opened Vocabulary
  import opened Requests

  /**
    The inbound message stream of a channel, as its consumer will see it:
    the messages still to be delivered, in order. Its end is the Session
    dropping the sending half.
   */
  datatype Receiver = Receiver(queue: seq<Message>)

  datatype Channel = Channel(id: u32, recver: Option<Receiver>, session: Option<SessionRef>)

  const closedDetail := "Channel has been closed"

  /** The messages still waiting for this handle; none once the stream is detached. */
  function Pending(ch: Channel): seq<Message>
  {
    if ch.recver.Some? then ch.recver.value.queue else []
  }

  /** A new handle owns both its inbound stream and a Session link. */
  function NewChannel(id: u32, queue: seq<Message>): (ch: Channel)
    ensures ch.id == id
    ensures HasReceiver(ch) && Pending(ch) == queue
    ensures ch.session.Some?
  {
    Channel(id, Some(Receiver(queue)), Some(SessionRef))
  }

  /**
    Receiving from a detached stream yields the oldest message and loses
    nothing; an exhausted stream reports Disconnected.
   */
  function ReceiverRecv(r: Receiver): (res: (Result<Message>, Receiver))
    ensures res.0.Ok? <==> |r.queue| > 0
    ensures res.0.Ok? ==> [res.0.value] + res.1.queue == r.queue
    ensures res.0.Err? ==> res.0.error == Disconnected && res.1 == r
  {
    if |r.queue| == 0 then (Err(Disconnected), r)
    else (Ok(r.queue[0]), Receiver(r.queue[1..]))
  }

  /**
    The non-suspending receive. `ready` says whether the next message, or the
    end of the stream, has already reached the receiver; when it has not, the
    answer is "nothing yet" and the stream is left alone.
   */
  function ReceiverTryRecv(r: Receiver, ready: bool): (res: (Result<Option<Message>>, Receiver))
    ensures !ready ==> res == (Ok(None), r)
    ensures res.0.Ok? && res.0.value.Some? ==> [res.0.value.value] + res.1.queue == r.queue
    ensures res.0.Err? <==> ready && |r.queue| == 0
    ensures ready && |r.queue| > 0 ==> res.0.Ok? && res.0.value.Some?
    ensures res.0.Err? ==> res.0.error == Disconnected && res.1 == r
  {
    if !ready then (Ok(None), r)
    else if |r.queue| == 0 then (Err(Disconnected), r)
    else (Ok(Some(r.queue[0])), Receiver(r.queue[1..]))
  }

  /** Once the next item has arrived, the two receives agree. */
  lemma TryRecvAgreesWhenReady(r: Receiver)
    ensures ReceiverRecv(r).0.Ok? ==> ReceiverTryRecv(r, true).0 == Ok(Some(ReceiverRecv(r).0.value))
    ensures ReceiverRecv(r).0.Err? ==> ReceiverTryRecv(r, true).0 == Err(ReceiverRecv(r).0.error)
    ensures ReceiverTryRecv(r, true).1 == ReceiverRecv(r).1
  {
  }

  /** Whether the handle still owns its inbound stream. */
  predicate HasReceiver(ch: Channel)
  {
    ch.recver.Some?
  }

  /**
    Moves the inbound stream out of the handle. It yields a stream exactly
    when the handle had one, and the handle never has one afterwards.
   */
  function TakeReceiver(ch: Channel): (r: (Option<Receiver>, Channel))
    ensures r.0.Some? <==> HasReceiver(ch)
    ensures r.0 == ch.recver
    ensures !HasReceiver(r.1)
    ensures r.1.id == ch.id && r.1.session == ch.session
  {
    (ch.recver, ch.(recver := None))
  }

  /** The handle's receive: the stream's receive, or ChannelReceiverIsNone once it was detached. */
  function Recv(ch: Channel): (r: (Result<Message>, Channel))
    ensures !HasReceiver(ch) ==> r == (Err(ChannelReceiverIsNone), ch)
    ensures r.1.id == ch.id && r.1.session == ch.session
    ensures HasReceiver(r.1) == HasReceiver(ch)
    ensures r.0.Ok? <==> |Pending(ch)| > 0
    ensures r.0.Ok? ==> [r.0.value] + Pending(r.1) == Pending(ch)
    ensures HasReceiver(ch) && r.0.Err? ==> r.0.error == Disconnected && r.1 == ch
  {
    match ch.recver
    case None => (Err(ChannelReceiverIsNone), ch)
    case Some(rc) =>
      var (m, rc') := ReceiverRecv(rc);
      (m, ch.(recver := Some(rc')))
  }

  /** The handle's non-suspending receive. */
  function TryRecv(ch: Channel, ready: bool): (r: (Result<Option<Message>>, Channel))
    ensures !HasReceiver(ch) ==> r == (Err(ChannelReceiverIsNone), ch)
    ensures r.1.id == ch.id && r.1.session == ch.session
    ensures HasReceiver(ch) ==> r.0 == ReceiverTryRecv(ch.recver.value, ready).0
    ensures HasReceiver(ch) ==> r.1.recver == Some(ReceiverTryRecv(ch.recver.value, ready).1)
  {
    match ch.recver
    case None => (Err(ChannelReceiverIsNone), ch)
    case Some(rc) =>
      var (m, rc') := ReceiverTryRecv(rc, ready);
      (m, ch.(recver := Some(rc')))
  }

  /**
    What `HasReceiver` answers: whether a take would yield the stream, and
    whether the handle's receives reach a stream at all rather than failing
    with ChannelReceiverIsNone. A handle without its stream has nothing
    pending.
   */
  lemma ReceiverPresence(ch: Channel, ready: bool)
    ensures HasReceiver(ch) <==> TakeReceiver(ch).0.Some?
    ensures HasReceiver(ch) <==> Recv(ch).0 != Err(ChannelReceiverIsNone)
    ensures HasReceiver(ch) <==> TryRecv(ch, ready).0 != Err(ChannelReceiverIsNone)
    ensures !HasReceiver(ch) ==> Pending(ch) == []
  {
  }

  /**
    Taking the stream is one-way: a second take yields nothing, the handle's
    own receives then fail with ChannelReceiverIsNone, and the detached stream
    delivers exactly what the handle would have delivered.
   */
  lemma TakeReceiverIsOneWay(ch: Channel, ready: bool)
    ensures TakeReceiver(TakeReceiver(ch).1).0 == None
    ensures Recv(TakeReceiver(ch).1).0 == Err(ChannelReceiverIsNone)
    ensures TryRecv(TakeReceiver(ch).1, ready).0 == Err(ChannelReceiverIsNone)
    ensures HasReceiver(ch) ==> ReceiverRecv(TakeReceiver(ch).0.value).0 == Recv(ch).0
  {
  }

  /**
    Passes a request to the Session. A handle that has given up its link
    fails with BadOperation; a Session that no longer receives fails with
    Disconnected; only a successful send reaches the log.
   */
  function SendRequest(ch: Channel, s: Session, req: Request): (r: (Result<()>, Session))
    ensures r.0.Ok? <==> ch.session.Some? && s.open
    ensures r.0.Ok? ==> r.1 == s.(log := s.log + [req])
    ensures r.0.Err? ==> r.1 == s
    ensures ch.session.None? ==> r.0 == Err(BadOperation(closedDetail))
    ensures ch.session.Some? && !s.open ==> r.0 == Err(Disconnected)
  {
    if ch.session.None? then (Err(BadOperation(closedDetail)), s)
    else Send(s, req)
  }

  /** A clone of the handle's Session link, or BadOperation once it is gone. */
  function SessionLink(ch: Channel): (r: Result<SessionRef>)
    ensures r.Ok? <==> ch.session.Some?
    ensures r.Err? ==> r.error == BadOperation(closedDetail)
    ensures r.Ok? ==> r.value == ch.session.value
  {
    if ch.session.Some? then Ok(ch.session.value) else Err(BadOperation(closedDetail))
  }

  /**
    One request round trip: send, then await the completion. A failed send is
    reported at once and uses up no completion; otherwise the request is
    logged and the next completion decides the result.
   */
  function Call(ch: Channel, s: Session, req: Request): (r: (Result<nat>, Session))
    ensures r.1.open == s.open
    ensures !(ch.session.Some? && s.open) ==> r.1 == s && r.0 == Err(SendRequest(ch, s, req).0.error)
    ensures ch.session.Some? && s.open ==> r.1.log == s.log + [req]
    ensures ch.session.Some? && s.open ==> r.0 == Await(s).0 && r.1.replies == Await(s).1.replies
  {
    var (sent, s1) := SendRequest(ch, s, req);
    if sent.Err? then (Err(sent.error), s1)
    else Await(s1)
  }

  /** Writes data: the result is the byte count the Session reports as accepted. */
  function Write(ch: Channel, s: Session, data: Bytes): (r: (Result<nat>, Session))
    ensures r.1.open == s.open
    ensures |r.1.replies| <= |s.replies|
    ensures r.0.Ok? ==> ch.session.Some? && s.open && |s.replies| > 0 && s.replies[0] == Answered(Ok(r.0.value))
    ensures r.0.Ok? ==> r.1.replies == s.replies[1..]
    ensures ch.session.Some? && s.open && |s.replies| > 0 ==> r.1.replies == s.replies[1..]
    ensures |s.replies| == 0 ==> r.1.replies == []
    ensures ch.session.Some? && s.open ==> r.1.log == s.log + [ChannelWriteStdout(ch.id, data)]
    ensures !(ch.session.Some? && s.open) ==> r.1 == s
    ensures ch.session.None? ==> r.0 == Err(BadOperation(closedDetail))
    ensures ch.session.Some? && !s.open ==> r.0 == Err(Disconnected)
    ensures ch.session.Some? && s.open && |s.replies| > 0 && s.replies[0].Answered? ==> r.0 == s.replies[0].result
    ensures ch.session.Some? && s.open && (|s.replies| == 0 || s.replies[0].Dropped?) ==> r.0 == Err(RequestAbandoned)
  {
    Call(ch, s, ChannelWriteStdout(ch.id, data))
  }

  /**
    What happens when a handle goes out of scope: a fire-and-forget drop
    request, exactly when the handle still has its Session link and the
    Session still receives. Failures are swallowed.
   */
  function Drop(ch: Channel, s: Session): (s': Session)
    ensures s'.open == s.open && s'.replies == s.replies
    ensures s'.log == s.log + [ChannelDrop(ch.id, false)] <==> ch.session.Some? && s.open
    ensures !(ch.session.Some? && s.open) ==> s' == s
  {
    if ch.session.Some? then Send(s, ChannelDrop(ch.id, false)).1 else s
  }

  /**
    The body of close, up to the point where the handle goes out of scope:
    the result, the handle as it is then, and the Session.
   */
  function CloseRequest(ch: Channel, s: Session): (r: (Result<()>, Channel, Session))
    ensures r.0.Ok? ==> r.1.recver.None? && r.1.session.None?
    ensures r.0.Err? ==> r.1 == ch
    ensures r.1.id == ch.id
  {
    var (sent, s1) := SendRequest(ch, s, ChannelDrop(ch.id, true));
    if sent.Err? then (Err(sent.error), ch, s1)
    else
      var (answer, s2) := Await(s1);
      if answer.Err? then (Err(answer.error), ch, s2)
      else (Ok(()), ch.(recver := None, session := None), s2)
  }

  /**
    Closes the handle and lets it go out of scope. A handle without a link
    fails with BadOperation and a shut Session with Disconnected, and neither
    emits anything. Otherwise one drop request with a completion is sent;
    when the completion confirms, that is all, and when it fails the handle
    still holds its link, so the scope exit adds one fire-and-forget drop.
   */
  function Close(ch: Channel, s: Session): (r: (Result<()>, Session))
    ensures r.1.open == s.open
    ensures ch.session.None? ==> r == (Err(BadOperation(closedDetail)), s)
    ensures ch.session.Some? && !s.open ==> r == (Err(Disconnected), s)
    ensures r.0.Ok? <==>
              ch.session.Some? && s.open && |s.replies| > 0 && s.replies[0].Answered? && s.replies[0].result.Ok?
    ensures ch.session.Some? && s.open && r.0.Ok? ==> r.1.log == s.log + [ChannelDrop(ch.id, true)]
    ensures ch.session.Some? && s.open && r.0.Err? ==>
              r.1.log == s.log + [ChannelDrop(ch.id, true), ChannelDrop(ch.id, false)]
    ensures ch.session.Some? && s.open && |s.replies| == 0 ==> r.0 == Err(RequestAbandoned)
    ensures ch.session.Some? && s.open && |s.replies| > 0 ==> r.1.replies == s.replies[1..]
    ensures |s.replies| == 0 ==> r.1.replies == []
    ensures ch.session.Some? && s.open && |s.replies| > 0 && s.replies[0].Dropped? ==> r.0 == Err(RequestAbandoned)
    ensures ch.session.Some? && s.open && |s.replies| > 0 && s.replies[0].Answered? && s.replies[0].result.Err? ==>
              r.0 == Err(s.replies[0].result.error)
  {
    var (res, ch', s') := CloseRequest(ch, s);
    (res, Drop(ch', s'))
  }

  /** After a confirmed close the handle has nothing left for its scope exit to send. */
  lemma ClosedHandleDropsSilently(ch: Channel, s: Session)
    requires CloseRequest(ch, s).0.Ok?
    ensures var (_, ch', s') := CloseRequest(ch, s); Drop(ch', s') == s' && !HasReceiver(ch')
    ensures Close(ch, s).1 == CloseRequest(ch, s).2
  {
  }
}

=== FILE: forward.dfy ===
/**
  Port forwarding on top of channels. A forwarded connection is a `Stream`:
  a channel plus the address it belongs to, read and written as a byte pipe.
  A `Listener` is a remote forward the Session registered: it yields the
  incoming connections and, when cancelled or dropped, asks the Session to
  withdraw the forward.
 */
module Forward {
  import opened Base
  import opened Vocabulary
  import opened Requests
  import Channels

  datatype Stream = Stream(channel: Channels.Channel, address: SocketAddr)

  const unexpectedTip := "unexpected message"

  /** Writing to a stream writes its channel's stdout. */
  function StreamWrite(st: Stream, s: Session, data: Bytes): (r: (Result<nat>, Session))
    ensures r.1.open == s.open
    ensures r.0.Ok? ==> st.channel.session.Some? && s.open && |s.replies| > 0 && s.replies[0] == Answered(Ok(r.0.value))
    ensures st.channel.session.Some? && s.open ==> r.1.log == s.log + [ChannelWriteStdout(st.channel.id, data)]
    ensures st.channel.session.None? ==> r == (Err(BadOperation(Channels.closedDetail)), s)
    ensures st.channel.session.Some? && !s.open ==> r == (Err(Disconnected), s)
    ensures st.channel.session.Some? && s.open && |s.replies| > 0 && s.replies[0].Answered? ==>
              r.0 == s.replies[0].result && r.1.replies == s.replies[1..]
    ensures st.channel.session.Some? && s.open && (|s.replies| == 0 || s.replies[0].Dropped?) ==>
              r.0 == Err(RequestAbandoned)
    ensures r == Channels.Write(st.channel, s, data)
  {
    Channels.Write(st.channel, s, data)
  }

  /**
    Reads the next chunk. The next message is used up whatever it is: a
    stdout chunk is the result, a stderr chunk is a BadMessage, and any other
    message means the connection is over (ChannelClosed). Receive errors pass
    through.
   */
  function StreamRead(st: Stream): (r: (Result<Bytes>, Stream))
    ensures r.1.address == st.address && r.1.channel.id == st.channel.id
    ensures r.1.channel.session == st.channel.session
    ensures var q := Channels.Pending(st.channel);
            && (r.0.Ok? <==> |q| > 0 && q[0].Stdout?)
            && (r.0.Ok? ==> r.0.value == q[0].data)
            && (|q| > 0 ==> Channels.Pending(r.1.channel) == q[1..])
            && (|q| > 0 && q[0].Stderr? ==> r.0 == Err(BadMessage(unexpectedTip)))
            && (|q| > 0 && !q[0].Stdout? && !q[0].Stderr? ==> r.0 == Err(ChannelClosed))
    ensures Channels.HasReceiver(st.channel) && |Channels.Pending(st.channel)| == 0 ==>
              r.0 == Err(Disconnected) && r.1 == st
    ensures !Channels.HasReceiver(st.channel) ==> r == (Err(ChannelReceiverIsNone), st)
  {
    var (m, ch) := Channels.Recv(st.channel);
    var st' := st.(channel := ch);
    if m.Err? then (Err(m.error), st')
    else match m.value
      case Stdout(items) => (Ok(items), st')
      case Stderr(_) => (Err(BadMessage(unexpectedTip)), st')
      case _ => (Err(ChannelClosed), st')
  }

  /** The next message of the stream, unfiltered. */
  function StreamMessage(st: Stream): (r: (Result<Message>, Stream))
    ensures r.1.address == st.address && r.1.channel.session == st.channel.session
    ensures r.0.Ok? <==> |Channels.Pending(st.channel)| > 0
    ensures r.0.Ok? ==> [r.0.value] + Channels.Pending(r.1.channel) == Channels.Pending(st.channel)
    ensures !Channels.HasReceiver(st.channel) ==> r == (Err(ChannelReceiverIsNone), st)
  {
    var (m, ch) := Channels.Recv(st.channel);
    (m, st.(channel := ch))
  }

  /**
    A read is the filtered view of the raw message: both use up the same
    message, and a read succeeds exactly on a stdout chunk, with its bytes.
   */
  lemma ReadFiltersMessage(st: Stream)
    ensures StreamRead(st).1 == StreamMessage(st).1
    ensures StreamRead(st).0.Ok? <==> StreamMessage(st).0.Ok? && StreamMessage(st).0.value.Stdout?
    ensures StreamRead(st).0.Ok? ==> StreamRead(st).0.value == StreamMessage(st).0.value.data
    ensures StreamMessage(st).0.Err? ==> StreamRead(st).0 == Err(StreamMessage(st).0.error)
  {
  }

  /**
    Closing a stream closes its channel, scope exit included: without a link
    it is BadOperation and with a shut Session Disconnected, logging nothing;
    otherwise the completion decides, and any failure after the send is
    followed by the fire-and-forget drop.
   */
  function StreamClose(st: Stream, s: Session): (r: (Result<()>, Session))
    ensures r.1.open == s.open
    ensures st.channel.session.None? ==> r == (Err(BadOperation(Channels.closedDetail)), s)
    ensures st.channel.session.Some? && !s.open ==> r == (Err(Disconnected), s)
    ensures st.channel.session.Some? && s.open && |s.replies| > 0 ==> r.1.replies == s.replies[1..]
    ensures |s.replies| == 0 ==> r.1.replies == []
    ensures st.channel.session.Some? && s.open && (|s.replies| == 0 || s.replies[0].Dropped?) ==>
              r.0 == Err(RequestAbandoned)
    ensures && st.channel.session.Some? && s.open
            && |s.replies| > 0 && s.replies[0].Answered? && s.replies[0].result.Err? ==>
              r.0 == Err(s.replies[0].result.error)
    ensures r.0.Ok? <==>
              st.channel.session.Some? && s.open && |s.replies| > 0 && s.replies[0].Answered? && s.replies[0].result.Ok?
    ensures r.0.Ok? ==> r.1.log == s.log + [ChannelDrop(st.channel.id, true)]
    ensures st.channel.session.Some? && s.open && r.0.Err? ==>
              r.1.log == s.log + [ChannelDrop(st.channel.id, true), ChannelDrop(st.channel.id, false)]
  {
    Channels.Close(st.channel, s)
  }

  /**
    The listener holds its Session link until a confirmed cancel, the stream
    of incoming connections (complete: its end is the Session dropping the
    sending half), and the forwarded address.
   */
  datatype Listener = Listener(session: Option<SessionRef>, incoming: seq<Stream>, address: SocketAddr)

  const cancelledDetail := "Listener has been cancelled"

  /** A new listener is linked to the Session. */
  function NewListener(incoming: seq<Stream>, address: SocketAddr): (l: Listener)
    ensures l.session.Some?
    ensures l.incoming == incoming && l.address == address
  {
    Listener(Some(SessionRef), incoming, address)
  }

  /** The next incoming connection, in arrival order; Disconnected once the Session stops sending them. */
  function Accept(l: Listener): (r: (Result<Stream>, Listener))
    ensures r.0.Ok? <==> |l.incoming| > 0
    ensures r.0.Ok? ==> [r.0.value] + r.1.incoming == l.incoming
    ensures r.0.Err? ==> r.0.error == Disconnected && r.1 == l
    ensures r.1.session == l.session && r.1.address == l.address
  {
    if |l.incoming| == 0 then (Err(Disconnected), l)
    else (Ok(l.incoming[0]), l.(incoming := l.incoming[1..]))
  }

  /**
    The fire-and-forget drops a run of streams sends as it goes out of
    scope, in order: one for each stream whose channel still holds its link.
   */
  function LinkedDrops(streams: seq<Stream>): (d: seq<Request>)
    ensures |d| <= |streams|
    ensures forall i :: 0 <= i < |d| ==> d[i].ChannelDrop? && !d[i].reply
    ensures (forall i :: 0 <= i < |streams| ==> streams[i].channel.session.None?) ==> d == []
  {
    if |streams| == 0 then []
    else
      var st := streams[0];
      (if st.channel.session.Some? then [ChannelDrop(st.channel.id, false)] else []) + LinkedDrops(streams[1..])
  }

  /** The streams of a run going out of scope one after the other, each dropping its channel. */
  function DropStreams(streams: seq<Stream>, s: Session): (s': Session)
    ensures s'.open == s.open && s'.replies == s.replies
    ensures s.open ==> s'.log == s.log + LinkedDrops(streams)
    ensures !s.open ==> s' == s
    decreases |streams|
  {
    if |streams| == 0 then s
    else
      var st := streams[0];
      var first := if st.channel.session.Some? then [ChannelDrop(st.channel.id, false)] else [];
      var s1 := Channels.Drop(st.channel, s);
      assert s.open ==> s1.log == s.log + first;
      assert LinkedDrops(streams) == first + LinkedDrops(streams[1..]);
      DropStreams(streams[1..], s1)
  }

  /**
    Scope exit of a listener: a fire-and-forget cancel of its address when
    it still holds its link, then the connections still queued for it are
    dropped in arrival order, each linked one with its own fire-and-forget
    channel drop. A shut Session receives none of it.
   */
  function DropListener(l: Listener, s: Session): (s': Session)
    ensures s'.open == s.open && s'.replies == s.replies
    ensures s.open && l.session.Some? ==>
              s'.log == s.log + [CancelTcpipForward(l.address, false)] + LinkedDrops(l.incoming)
    ensures s.open && l.session.None? ==> s'.log == s.log + LinkedDrops(l.incoming)
    ensures !s.open ==> s' == s
  {
    var s1 := if l.session.Some? then Send(s, CancelTcpipForward(l.address, false)).1 else s;
    DropStreams(l.incoming, s1)
  }

  /**
    The body of cancel, up to the point where the listener goes out of
    scope. Unlike a channel request, a completion the Session drops reads as
    Disconnected; an error the Session answers with is passed on.
   */
  function CancelRequest(l: Listener, s: Session): (r: (Result<()>, Listener, Session))
    ensures r.0.Ok? ==> r.1.session.None?
    ensures r.0.Err? ==> r.1 == l
    ensures r.1.address == l.address && r.1.incoming == l.incoming
  {
    if l.session.None? then (Err(BadOperation(cancelledDetail)), l, s)
    else
      var (sent, s1) := Send(s, CancelTcpipForward(l.address, true));
      if sent.Err? then (Err(Disconnected), l, s1)
      else if |s1.replies| == 0 then (Err(Disconnected), l, s1)
      else
        var s2 := s1.(replies := s1.replies[1..]);
        match s1.replies[0]
        case Dropped => (Err(Disconnected), l, s2)
        case Answered(Err(e)) => (Err(e), l, s2)
        case Answered(Ok(_)) => (Ok(()), l.(session := None), s2)
  }

  /**
    Cancels the forward and lets the listener go out of scope. A listener
    without a link fails with BadOperation and a shut Session with
    Disconnected, sending no cancel. Otherwise one cancel with a completion
    is sent; a confirmation ends it there, and any failure leaves the link in
    place so the scope exit sends one fire-and-forget cancel. Either way the
    connections still queued are dropped last.
   */
  function Cancel(l: Listener, s: Session): (r: (Result<()>, Session))
    ensures r.1.open == s.open
    ensures !s.open ==> r.1 == s
    ensures l.session.None? ==> r.0 == Err(BadOperation(cancelledDetail)) && r.1.replies == s.replies
    ensures l.session.None? && s.open ==> r.1.log == s.log + LinkedDrops(l.incoming)
    ensures l.session.Some? && !s.open ==> r.0 == Err(Disconnected)
    ensures r.0.Ok? <==>
              l.session.Some? && s.open && |s.replies| > 0 && s.replies[0].Answered? && s.replies[0].result.Ok?
    ensures r.0.Ok? ==> r.1.log == s.log + [CancelTcpipForward(l.address, true)] + LinkedDrops(l.incoming)
    ensures l.session.Some? && s.open && r.0.Err? ==>
              r.1.log == s.log + [CancelTcpipForward(l.address, true), CancelTcpipForward(l.address, false)]
                                + LinkedDrops(l.incoming)
    ensures l.session.Some? && s.open && |s.replies| > 0 ==> r.1.replies == s.replies[1..]
    ensures |s.replies| == 0 ==> r.1.replies == []
    ensures l.session.Some? && s.open && (|s.replies| == 0 || s.replies[0].Dropped?) ==> r.0 == Err(Disconnected)
    ensures l.session.Some? && s.open && |s.replies| > 0 && s.replies[0].Answered? && s.replies[0].result.Err? ==>
              r.0 == Err(s.replies[0].result.error)
  {
    var (res, l', s') := CancelRequest(l, s);
    (res, DropListener(l', s'))
  }

  /**
    After a confirmed cancel the scope exit sends no second cancel: all that
    is left is dropping the connections still queued.
   */
  lemma CancelledListenerDropsSilently(l: Listener, s: Session)
    requires CancelRequest(l, s).0.Ok?
    ensures var c := CancelRequest(l, s);
            DropListener(c.1, c.2) == DropStreams(l.incoming, c.2)
    ensures Cancel(l, s).1 == DropStreams(l.incoming, CancelRequest(l, s).2)
  {
  }

  /**
    Cancelling a listener and closing a channel over the same Session are
    the same round trip with one difference: a completion that never comes
    back is Disconnected for the listener and RequestAbandoned for the
    channel. Both succeed together, use up the same completion, report the
    same answered error, and send as many requests, apart from the drops of
    the connections still queued for the listener.
   */
  lemma CancelMirrorsClose(l: Listener, ch: Channels.Channel, s: Session)
    requires l.session.Some? && ch.session.Some?
    ensures Cancel(l, s).0.Ok? <==> Channels.Close(ch, s).0.Ok?
    ensures Cancel(l, s).1.replies == Channels.Close(ch, s).1.replies
    ensures |Cancel(l, s).1.log| == |Channels.Close(ch, s).1.log| + (if s.open then |LinkedDrops(l.incoming)| else 0)
    ensures && Channels.Close(ch, s).0 == Err(RequestAbandoned)
            && !(|s.replies| > 0 && s.replies[0] == Answered(Err(RequestAbandoned))) ==>
              Cancel(l, s).0 == Err(Disconnected)
    ensures Channels.Close(ch, s).0.Err? && Channels.Close(ch, s).0 != Err(RequestAbandoned) ==>
              Cancel(l, s).0 == Channels.Close(ch, s).0
  {
  }
}

=== FILE: requests.dfy ===
/**
  The request side of the boundary with the Session. Every channel and
  listener of one connection holds a clone of the same request sender; the
  model keeps the single shared queue as a value `Session` that operations
  take and return:
  - `open` says whether the Session still receives requests (sending fails
    with Disconnected otherwise);
  - `replies` is the order in which the Session resolves the one-shot
    completions of the requests that carry one; a completion the Session
    drops, or one it never reaches, reads as `Dropped`;
  - `log` records every request the Session received, in order.
 */
module Requests {
  import opened Base
  import opened Vocabulary

  /**
    The requests this layer emits. `reply` records whether the request
    carries a completion sender (`Some(sender)` in the source) or is
    fire-and-forget (`None`).
   */
  datatype Request =
    | ChannelDrop(id: u32, reply: bool)
    | ChannelWriteStdout(id: u32, data: Bytes)
    | CancelTcpipForward(address: SocketAddr, reply: bool)

  /**
    How the Session resolves one completion. For a write the value is the
    number of bytes it accepted; requests whose completion carries no value
    ignore it.
   */
  datatype Reply = Dropped | Answered(result: Result<nat>)

  datatype Session = Session(open: bool, replies: seq<Reply>, log: seq<Request>)

  /** A clone of the connection's request sender, held by a handle. */
  datatype SessionRef = SessionRef

  /** Hands one request to the Session; it arrives exactly when the Session is still open. */
  function Send(s: Session, req: Request): (r: (Result<()>, Session))
    ensures r.0.Ok? <==> s.open
    ensures r.0.Err? ==> r.0.error == Disconnected && r.1 == s
    ensures r.0.Ok? ==> r.1 == s.(log := s.log + [req])
  {
    if s.open then (Ok(()), s.(log := s.log + [req])) else (Err(Disconnected), s)
  }

  /**
    Awaits the oldest outstanding completion: its answer is returned as is,
    and a dropped or missing one surfaces as RequestAbandoned.
   */
  function Await(s: Session): (r: (Result<nat>, Session))
    ensures r.1.open == s.open && r.1.log == s.log
    ensures |s.replies| == 0 ==> r == (Err(RequestAbandoned), s)
    ensures |s.replies| > 0 ==> r.1.replies == s.replies[1..]
    ensures |s.replies| > 0 && s.replies[0].Answered? ==> r.0 == s.replies[0].result
    ensures |s.replies| > 0 && s.replies[0].Dropped? ==> r.0 == Err(RequestAbandoned)
  {
    if |s.replies| == 0 then (Err(RequestAbandoned), s)
    else
      var rest := s.(replies := s.replies[1..]);
      match s.replies[0]
      case Dropped => (Err(RequestAbandoned), rest)
      case Answered(res) => (res, rest)
  }
}

=== FILE: scenarios.dfy ===
/**
  The two sides of one channel put together: what the Session pushes into a
  channel's inbound stream, and what a buffered reader over that stream
  then obtains.
 */
module Scenarios {
  import opened Base
  import opened Vocabulary
  import opened Channels
  import opened Buffered
  import opened SessionSide

  /** No message of the stream ends it. */
  predicate Unterminated(d: seq<Message>)
  {
    forall i :: 0 <= i < |d| ==> !d[i].Close? && !d[i].Eof?
  }

  /**
    A stream that runs unterminated up to a Close or Eof `t` is readable
    exactly up to `t`, whatever follows it: all the earlier stdout payloads,
    then the failure `t` stands for.
   */
  lemma {:induction false} EndedBy(d: seq<Message>, t: Message, rest: seq<Message>)
    requires Unterminated(d) && (t.Close? || t.Eof?)
    ensures Readable(d + [t] + rest) == StdoutOf(d)
    ensures StreamEnd(d + [t] + rest) == (if t.Close? then ChannelClosed else ChannelEof)
    decreases |d|
  {
    if |d| > 0 {
      assert (d + [t] + rest)[1..] == d[1..] + [t] + rest;
      assert Unterminated(d[1..]) by {
        forall i | 0 <= i < |d[1..]| ensures !d[1..][i].Close? && !d[1..][i].Eof? {
          assert d[1..][i] == d[i + 1];
        }
      }
      EndedBy(d[1..], t, rest);
    } else {
      assert d + [t] + rest == [t] + rest;
    }
  }

  /** `FillReadsStream` for a fresh buffer over a stream. */
  lemma FreshReads(id: u32, q: seq<Message>, len: nat)
    ensures var r := Fill(NewBuffer(NewChannel(id, q)), len);
            && (r.0.Ok? <==> len <= |Readable(q)|)
            && (r.0.Ok? ==> r.0.value == Readable(q)[..len])
            && (r.0.Err? ==> r.0.error == StreamEnd(q))
  {
    var b := NewBuffer(NewChannel(id, q));
    assert b.stdout + Readable(Pending(b.channel)) == Readable(q);
    FillReadsStream(b, len);
  }

  /**
    After the server's end-of-file, a consumer reading from a fresh buffer
    over what was delivered gets every stdout byte sent before it, in order,
    and a read for more than that fails with ChannelEof and sets the eof
    flag.
   */
  lemma ServerEofEndsReads(c: ChannelInner, len: nat)
    requires c.sender.consumerAlive && Unterminated(c.sender.delivered)
    ensures var sent := StdoutOf(c.sender.delivered);
            var r := Fill(NewBuffer(NewChannel(c.server.id, ServerEof(c).sender.delivered)), len);
            && (r.0.Ok? <==> len <= |sent|)
            && (r.0.Ok? ==> r.0.value == sent[..len])
            && (r.0.Err? ==> r.0 == Err(ChannelEof) && r.1.eof)
  {
    EndedBy(c.sender.delivered, Eof, []);
    assert c.sender.delivered + [Eof] + [] == ServerEof(c).sender.delivered;
    FreshReads(c.server.id, c.sender.delivered + [Eof], len);
  }

  /** The same for the server closing the channel: the failure is ChannelClosed and the closed flag is set. */
  lemma ServerCloseEndsReads(c: ChannelInner, len: nat)
    requires c.sender.consumerAlive && Unterminated(c.sender.delivered)
    ensures var sent := StdoutOf(c.sender.delivered);
            var r := Fill(NewBuffer(NewChannel(c.server.id, ServerClose(c).sender.delivered)), len);
            && (r.0.Ok? <==> len <= |sent|)
            && (r.0.Ok? ==> r.0.value == sent[..len])
            && (r.0.Err? ==> r.0 == Err(ChannelClosed) && r.1.closed)
  {
    EndedBy(c.sender.delivered, Close, []);
    assert c.sender.delivered + [Close] + [] == ServerClose(c).sender.delivered;
    FreshReads(c.server.id, c.sender.delivered + [Close], len);
  }

  /**
    A command's output arriving as two stdout chunks, its exit status, then
    end-of-file and close: reading three bytes yields both chunks joined,
    and the next one-byte read after consuming them fails with ChannelEof.
   */
  lemma TwoChunksThenEof(q: seq<Message>)
    requires q == [Stdout([104, 105]), Stdout([33]), Exit(Normal(0)), Eof, Close]
    ensures var b := NewBuffer(NewChannel(1, q));
            && Fill(b, 3).0 == Ok([104, 105, 33])
            && Fill(Consume(Fill(b, 3).1, 3), 1).0 == Err(ChannelEof)
  {
    var d := [Stdout([104, 105]), Stdout([33]), Exit(Normal(0))];
    assert q == d + [Eof] + [Close];
    EndedBy(d, Eof, [Close]);
    assert StdoutOf(d) == [104, 105, 33] by {
      assert d[1..][1..][1..] == [];
    }
    FreshReads(1, q, 3);
    assert Readable(q)[..3] == [104, 105, 33];
    FillConsumeFill(NewBuffer(NewChannel(1, q)), 3, 1);
  }
}

=== FILE: session_side.dfy ===
/**
  The Session-owned mirror of one channel: per-direction flow-control
  bookkeeping and the sender that pushes decoded messages to the consumer.
 */
module SessionSide {
  import opened Base
  import opened Vocabulary

  /** One direction's window credit and terminal flags. */
  datatype Endpoint = Endpoint(id: u32, initial: u32, size: u32, maximum: u32, eof: bool, closed: bool)

  /** A fresh endpoint starts with its whole initial window and neither flag set. */
  function NewEndpoint(id: u32, initial: u32, maximum: u32): (e: Endpoint)
    ensures e.id == id && e.initial == initial && e.maximum == maximum
    ensures e.size == e.initial
    ensures !e.eof && !e.closed
  {
    Endpoint(id, initial, initial, maximum, false, false)
  }

  /**
    The sending half of a channel's inbound stream. Pushing succeeds while the
    consumer still holds the receiving half; otherwise the message is lost.
   */
  datatype Outbox = Outbox(consumerAlive: bool, delivered: seq<Message>)

  /** A best-effort push whose failure is ignored. */
  function Push(o: Outbox, m: Message): (o': Outbox)
    ensures o'.consumerAlive == o.consumerAlive
    ensures o.consumerAlive ==> o'.delivered == o.delivered + [m]
    ensures !o.consumerAlive ==> o' == o
  {
    if o.consumerAlive then o.(delivered := o.delivered + [m]) else o
  }

  datatype ChannelInner = ChannelInner(client: Endpoint, server: Endpoint, sender: Outbox)

  /**
    The server closed the channel: the server endpoint is marked closed and a
    Close message is pushed to the consumer if it is still there.
   */
  function ServerClose(c: ChannelInner): (c': ChannelInner)
    ensures c'.server.closed
    ensures c'.server == c.server.(closed := true)
    ensures c'.client == c.client
    ensures c'.sender.consumerAlive == c.sender.consumerAlive
    ensures c.sender.consumerAlive ==> c'.sender.delivered == c.sender.delivered + [Close]
    ensures !c.sender.consumerAlive ==> c'.sender.delivered == c.sender.delivered
  {
    c.(server := c.server.(closed := true), sender := Push(c.sender, Close))
  }

  /**
    The server sent end-of-file: the server endpoint is marked eof and an Eof
    message is pushed to the consumer if it is still there.
   */
  function ServerEof(c: ChannelInner): (c': ChannelInner)
    ensures c'.server.eof
    ensures c'.server == c.server.(eof := true)
    ensures c'.client == c.client
    ensures c'.sender.consumerAlive == c.sender.consumerAlive
    ensures c.sender.consumerAlive ==> c'.sender.delivered == c.sender.delivered + [Eof]
    ensures !c.sender.consumerAlive ==> c'.sender.delivered == c.sender.delivered
  {
    c.(server := c.server.(eof := true), sender := Push(c.sender, Eof))
  }

  /**
    The flags only ever go from false to true, and window bookkeeping is not
    touched by either notification, in whatever order they arrive.
   */
  lemma NotificationsAreMonotonic(c: ChannelInner)
    ensures ServerClose(ServerEof(c)).server == ServerEof(ServerClose(c)).server
    ensures ServerClose(ServerClose(c)).server == ServerClose(c).server
    ensures ServerEof(ServerEof(c)).server == ServerEof(c).server
    ensures var s := ServerClose(ServerEof(c)).server;
            s.eof && s.closed && s.size == c.server.size && s.maximum == c.server.maximum
  {
  }
}

=== FILE: vocabulary.dfy ===
/**
  The values exchanged between the Session and the channel consumers:
  exit statuses, signal names, inbound messages and forwarding addresses.
 */
module Vocabulary {
  import opened Base

  /** A symbolic signal name such as "TERM"; compared by its text. */
  datatype Signal = Signal(name: string)

  /** A signal compares equal to a plain string exactly when its name is that string. */
  predicate SignalIs(sig: Signal, s: string)
    ensures SignalIs(sig, s) <==> sig == Signal(s)
  {
    sig.name == s
  }

  /** How a remote process ended: a plain exit code, or a signal with details. */
  datatype ExitStatus =
    | Normal(code: u32)
    | Interrupt(signal: Signal, coreDumped: bool, errorMsg: string, tag: string)

  /** A process succeeded exactly when it exited normally with code zero. */
  predicate Success(status: ExitStatus)
    ensures Success(status) <==> status == Normal(0)
    ensures status.Interrupt? ==> !Success(status)
  {
    match status
    case Normal(c) => c == 0
    case Interrupt(_, _, _, _) => false
  }

  /** Everything the Session may push into one channel's inbound stream. */
  datatype Message =
    | Close
    | Eof
    | Stdout(data: Bytes)
    | Stderr(data: Bytes)
    | Exit(status: ExitStatus)

  /** A forwarding endpoint: host text and port. */
  datatype SocketAddr = SocketAddr(host: string, port: u32)
}
